=== FILE: README.md ===
# nerdicon_browser core, modelled in Dafny

nerdicon_browser is a GTK browser for the glyphs of Nerd Fonts. When a font
family is selected, it walks three private-use codepoint ranges in small batches
on the main loop. Each codepoint the font covers goes into a grid as an icon item
named after the font's glyph name. The user can filter the grid by name or by
hexadecimal codepoint and copy a glyph by clicking it.

This project models the logic under that UI:

- **Icon items** (`icon.dfy`): `code_hex()`, written as Python's `U+{cp:04X}`, and `char()`. A parser reads `code_hex()` back, so it has a round trip.
- **Candidate families** (`font_utils.dfy`): `candidate_font_families()`. The toolkit's family names are an input. The Python helpers it uses are in `text.dfy`: `str.lower`, `in` on strings, `<` on strings, and `sorted(dict.fromkeys(...))`.
- **Window state** (`main_window.dfy`) as an immutable record:
  - the scan generation;
  - the item store, as a sequence of icon items;
  - the glyph-name mapping;
  - the normalised search text and the `_filter_cb` filter;
  - the font dropdown's family list and selected position.
- **Controller** (`browser_controller.dfy`):
  - the batched scan `scan_step` over `(range index, current codepoint)`, with the font's coverage test as a parameter `covered`;
  - the whole scan as repeated steps, with a termination measure;
  - the generation checks that abandon a superseded scan;
  - the per-family glyph-name cache, `rebuild_from_font`, `start_scan_main`, and the event handlers.
- **Format helpers** (`hex.dfy`): Python's `{n:04X}` / `{n:04x}`. Used by `code_hex()`, by the fallback item names and by the filter's search text.

The main results:

- **The scan.** It examines every codepoint of the three ranges exactly once, in range order and then in ascending order, and nothing else (`EachCodepointExaminedOnce`).
- **An undisturbed scan.** After a font switch, a scan nobody supersedes leaves the store holding exactly one item per covered codepoint of those ranges, named from the loaded glyph names (`RebuildThenScan`).
- **Stale scans.** After a rebuild, every step or start of an earlier scan changes nothing (`RebuildCancelsEarlierScans`).
- **Search.** Typing an item's own `code_hex()`, in any letter case and with whitespace around it, always finds that item (`SearchByCodeHexFindsItem`).
- **Candidate families.** The list is sorted, has no duplicates, and takes its elements from the three-way filter (`CandidateFontFamilies`). It is the only such list (`SortedUniqueCanonical`).

## Model

| member | source | states |
|---|---|---|
| Icon.CodeHex | nerdicon_browser/models/icon.py:21-22 | `code_hex()` is "U+" followed by at least four characters. For a non-negative codepoint those are only upper-case hex digits. For a negative one they are "-" and upper-case digits. There is never a leading zero beyond the four-character padding: when the text is longer than "U+" and four characters, the first digit, after the sign if there is one, is not 0. |
| Icon.CodeHexRoundTrip | nerdicon_browser/models/icon.py:21-22 | Reading the text after "U+" back as hexadecimal gives the codepoint again, so the format pads but never truncates. |
| Icon.CodeHexTrimmed | nerdicon_browser/models/icon.py:21-22 | `code_hex()` has no whitespace at either end. |
| Icon.LowerCodeHex | nerdicon_browser/models/icon.py:21-22 | Lower-cased, `code_hex()` is "u+" followed by the lower-case `{:04x}` digits. |
| Icon.Char | nerdicon_browser/models/icon.py:15-19 | `char()` is one character: the codepoint itself when it is in 0..0x10FFFF, otherwise "?". |
| Icon.CharIsScalar | nerdicon_browser/models/icon.py:15-17 | For a Unicode scalar value, `char()` is exactly that one-character string. |
| Hex.FormatHex | nerdicon_browser/models/icon.py:22 | `{n:0<w>X}` / `{n:0<w>x}` is at least `w` characters: a sign for a negative number, then digits of the chosen case. It has no unneeded leading zero. |
| Hex.FormatHexValue | nerdicon_browser/models/icon.py:22 | The formatted digits read back as \|n\|. |
| Hex.LowerFormatHex | nerdicon_browser/views/main_window.py:296 | Lower-casing the upper-case format gives the lower-case format. |
| Hex.DigitsRoundTrip | nerdicon_browser/models/icon.py:22 | The shortest hexadecimal numeral of `n` reads back as `n`. |
| Hex.ZerosValue | nerdicon_browser/models/icon.py:22 | Zero padding in front of a numeral does not change its value. |
| FontUtils.CandidateFontFamilies | nerdicon_browser/models/font_utils.py:44-57 | If listing raises, the result is empty. The result is strictly sorted, has no duplicates, and takes every element from the listed names. If any name mentions "nerd", the result holds exactly those names. Otherwise, if any name is preferred, it holds exactly the listed preferred names. Otherwise it holds every listed name. |
| FontUtils.SortedUnique | nerdicon_browser/models/font_utils.py:54 | `sorted(dict.fromkeys(xs))` is strictly ascending, has the elements of `xs`, and has no repeats. |
| FontUtils.SortedUniqueCanonical | nerdicon_browser/models/font_utils.py:54 | Two strictly sorted lists with the same elements are equal, so the result is determined by its set of names. |
| FontUtils.Insert | nerdicon_browser/models/font_utils.py:54 | Inserting into a strictly sorted list keeps it strictly sorted and adds exactly the new name. |
| FontUtils.Keep | nerdicon_browser/models/font_utils.py:52 | A filtering list comprehension keeps exactly the elements satisfying its condition. |
| FontUtils.NerdyIsContainsNerd | nerdicon_browser/models/font_utils.py:52 | The "symbols nerd" test adds nothing: a name passes exactly when its lower-case form contains "nerd". |
| FontUtils.CandidatesOfEmpty | nerdicon_browser/models/font_utils.py:51-57 | An empty family list yields an empty result. |
| FontUtils.PreferredFallbackIsMonospace | nerdicon_browser/models/font_utils.py:55-57 | When the preferred fallback applies, it can only pick "Monospace" or "monospace". |
| FontUtils.PreferredNotNerdy | nerdicon_browser/models/font_utils.py:55 | A preferred name that does not mention "nerd" is "Monospace" or "monospace". |
| FontUtils.ContainsNerd | nerdicon_browser/models/font_utils.py:55 | The three preferred names other than the "monospace" spellings all mention "nerd". |
| Text.Strip | nerdicon_browser/views/main_window.py:133 | `str.strip()` returns a contiguous slice of the input with only whitespace outside it and none at its ends. It is empty exactly when the input is all whitespace. |
| Text.StripTrimmed | nerdicon_browser/views/main_window.py:133 | Stripping text with no whitespace at its ends changes nothing. |
| Text.StripPadded | nerdicon_browser/views/main_window.py:133 | Stripping whitespace padding from around a trimmed non-empty text gives that text. |
| Text.Lower | nerdicon_browser/views/main_window.py:133 | The ASCII model of `str.lower()` keeps the length and lower-cases each ASCII letter. |
| Text.LowerIdempotent | nerdicon_browser/views/main_window.py:133 | Lower-cased text has no upper-case letter, and lower-casing it again changes nothing. |
| Text.LowerConcat | nerdicon_browser/views/main_window.py:296 | Lower-casing a concatenation lower-cases each part. |
| Text.TrimmedOfLower | nerdicon_browser/views/main_window.py:133 | Text whose lower-cased form has no whitespace at its ends has none itself. |
| Text.LowerKeepsTrimmed | nerdicon_browser/views/main_window.py:133 | Lower-casing keeps text without whitespace at its ends in that state. |
| Text.Contains | nerdicon_browser/views/main_window.py:299 | `needle in hay` holds exactly when the needle occurs at some position of the haystack. |
| Text.ContainsSuffix | nerdicon_browser/views/main_window.py:299 | A string is contained in any string that ends with it. |
| Text.ContainsExtend | nerdicon_browser/views/main_window.py:299 | Appending text to a haystack keeps every match. |
| Text.LessIrreflexive | nerdicon_browser/models/font_utils.py:54 | Python's string `<` is irreflexive. |
| Text.LessTransitive | nerdicon_browser/models/font_utils.py:54 | Python's string `<` is transitive. |
| Text.LessTotal | nerdicon_browser/models/font_utils.py:54 | Of two different strings, one is less than the other. |
| MainWindow.NewWindow | nerdicon_browser/views/main_window.py:20-92 | A new window starts at generation 0 with an empty store, empty search text, no glyph names, no current font, an empty family list with nothing selected, and loading not shown. |
| MainWindow.GetGeneration | nerdicon_browser/views/main_window.py:151-152 | `get_generation()` reads the current scan generation. |
| MainWindow.NextThenGet | nerdicon_browser/views/main_window.py:151-156 | After `next_generation()`, `get_generation()` returns the number it handed out, which is larger than the one before. |
| MainWindow.NextGeneration | nerdicon_browser/views/main_window.py:154-156 | `next_generation()` increases the generation by exactly one, returns the new value, and changes nothing else. |
| MainWindow.ClearItems | nerdicon_browser/views/main_window.py:142-149 | `clear_items()` empties the store and leaves the rest of the window unchanged. |
| MainWindow.ItemName | nerdicon_browser/views/main_window.py:163 | An item's name is the mapped glyph name when it is present and non-empty, otherwise "Glyph " followed by the `{:04X}` digits. |
| MainWindow.FallbackNameReadsBack | nerdicon_browser/views/main_window.py:163 | The fallback name is "Glyph " followed by digits that read back, as `code_hex()` does, as the codepoint. |
| MainWindow.Items | nerdicon_browser/views/main_window.py:161-164 | One item per codepoint, in batch order, each named by `ItemName`. |
| MainWindow.ItemsConcat | nerdicon_browser/views/main_window.py:161-164 | The items of two batches joined are the items of each joined. |
| MainWindow.AppendCodepoints | nerdicon_browser/views/main_window.py:158-177 | The result is always False. A stale generation leaves the window unchanged. The current generation keeps the old items as a prefix and appends one correctly named item per codepoint, in order. Loading ends exactly for the last batch, and nothing else changes. |
| MainWindow.StaleAppendIgnored | nerdicon_browser/views/main_window.py:154-160 | After `next_generation()`, an append tagged with any earlier generation is ignored. |
| MainWindow.NormalizeSearch | nerdicon_browser/views/main_window.py:133 | The stored search text has no whitespace at its ends, no upper-case ASCII letter, and, with the ASCII model of lower-casing, is no longer than the typed text. It is empty exactly when the typed text is all whitespace. None counts as "". |
| MainWindow.SetSearchText | nerdicon_browser/views/main_window.py:132-137 | `set_search_text(text)` stores the normalised text and changes nothing else. |
| MainWindow.NormalizeSearchIdempotent | nerdicon_browser/views/main_window.py:133 | Normalising already-normalised search text changes nothing. |
| MainWindow.NormalizeSearchPadded | nerdicon_browser/views/main_window.py:133 | Text typed with whitespace around it is stored as that text lower-cased, without the whitespace. |
| MainWindow.FilterCb | nerdicon_browser/views/main_window.py:292-299 | An empty search text accepts every item. Otherwise an item is accepted exactly when the text occurs in "<name> u+<digits> <digits>", lower-cased. |
| MainWindow.HaystackParts | nerdicon_browser/views/main_window.py:296 | The filter's search string is the lower-cased name, the lower-cased `code_hex()` and the lower-case digits, joined by blanks. |
| MainWindow.SearchByCodeHexFindsItem | nerdicon_browser/views/main_window.py:292-299 | Any typed text whose lower-cased form equals that of the item's `code_hex()` (so `U+E0A0` in any letter case), with any whitespace around it, makes the filter accept that item. |
| MainWindow.SearchLowerCodeHexFindsItem | nerdicon_browser/views/main_window.py:292-299 | The lower-cased `code_hex()` of an item is accepted by the filter for that item. |
| MainWindow.SearchByHexDigitsFindsItem | nerdicon_browser/views/main_window.py:292-299 | Searching for an item's lower-case `{:04x}` digits finds it. |
| MainWindow.SearchByNameFindsItem | nerdicon_browser/views/main_window.py:292-299 | Any text contained in the item's lower-cased name finds it. |
| MainWindow.SetFamilyList | nerdicon_browser/views/main_window.py:106-108 | `set_family_list(families)` installs the families, the dropdown's position becomes the toolkit's choice, and nothing else changes. |
| MainWindow.IndexOf | nerdicon_browser/views/main_window.py:113 | `list.index` returns the first position holding the name. |
| MainWindow.GetSelectedFont | nerdicon_browser/views/main_window.py:118-122 | `get_selected_font()` returns a family exactly when the selected position is inside the list, and that family is the list's entry at the selected position. |
| MainWindow.SetSelectedFont | nerdicon_browser/views/main_window.py:110-116 | `set_selected_font(name)` records the name and changes only the selected position. |
| MainWindow.SelectThenGet | nerdicon_browser/views/main_window.py:110-122 | After `set_selected_font(n)`, `get_selected_font()` returns `n` exactly when `n` is a non-empty listed name, otherwise None. |
| MainWindow.ReselectKeepsFont | nerdicon_browser/views/main_window.py:110-122 | Re-selecting the selected family keeps it, unless that family is "". |
| MainWindow.SetLoading | nerdicon_browser/views/main_window.py:124-130 | `set_loading(b)` sets the loading flag to `b` and changes nothing else. |
| MainWindow.SetNameMapping | nerdicon_browser/views/main_window.py:139-140 | `set_name_mapping(m)` installs `m` as the glyph names and changes nothing else. |
| BrowserController.Interval | nerdicon_browser/controllers/browser_controller.py:136-140 | The codepoints `lo .. hi-1`, in ascending order. |
| BrowserController.Select | nerdicon_browser/controllers/browser_controller.py:137-138 | The collected codepoints are exactly the covered ones among those examined, and there are no more of them than were examined. |
| BrowserController.SelectIncreasing | nerdicon_browser/controllers/browser_controller.py:135-139 | Collecting from an ascending walk gives an ascending batch. |
| BrowserController.SelectConcat | nerdicon_browser/controllers/browser_controller.py:137-138 | Collecting over two walks joined is collecting over each, joined. |
| BrowserController.SelectSnoc | nerdicon_browser/controllers/browser_controller.py:137-139 | Examining one more codepoint appends it to the batch exactly when it is covered. |
| BrowserController.StepEnd | nerdicon_browser/controllers/browser_controller.py:136 | The examining loop stops after at most 1024 codepoints, and never past one beyond the range's end. |
| BrowserController.Examined | nerdicon_browser/controllers/browser_controller.py:123-140 | One step examines at most 1024 codepoints, in ascending order, all within the current range from the current codepoint. |
| BrowserController.ScanBatch | nerdicon_browser/controllers/browser_controller.py:133-140 | The loop as written collects exactly the covered codepoints of the examined ones, and stops where the step's end says. |
| BrowserController.Advance | nerdicon_browser/controllers/browser_controller.py:142-146 | Inside the range, the position moves to where the loop stopped. Past the range's end, the index moves on by one and, if a range remains, the codepoint resets to its start. The termination measure always decreases. |
| BrowserController.ScanStep | nerdicon_browser/controllers/browser_controller.py:125-153 | A stale step stops with no append and no change. After the last range, a step appends an empty last batch and stops. Any other step moves on and asks to continue. It appends, not as the last batch, exactly when some examined codepoint is covered. The batch is ascending and holds exactly the covered examined codepoints. |
| BrowserController.Run | nerdicon_browser/controllers/browser_controller.py:125-156 | Repeated steps terminate and keep the generation. A stale scan changes nothing. |
| BrowserController.ScheduleFrom | nerdicon_browser/controllers/browser_controller.py:133-146 | From a position inside a range, the scan examines the rest of that range and then all later ranges in full. |
| BrowserController.ScheduleIsAllRanges | nerdicon_browser/controllers/browser_controller.py:84-153 | The whole scan examines the three ranges one after another, each in ascending order. |
| BrowserController.RangeCodepointsShape | nerdicon_browser/controllers/browser_controller.py:84-88 | The codepoints of the ranges from `k` on are ascending, and are exactly those lying in one of those ranges. |
| BrowserController.EachCodepointExaminedOnce | nerdicon_browser/controllers/browser_controller.py:84-153 | Over the whole run, every codepoint of the three ranges is examined exactly once, in ascending order, and no other codepoint is examined. |
| BrowserController.RunAppendsCovered | nerdicon_browser/controllers/browser_controller.py:125-153 | A scan that is never superseded appends one item for every covered codepoint it still has to examine, in order, and then ends loading. |
| BrowserController.StepWindow | nerdicon_browser/controllers/browser_controller.py:133-153 | A continuing step of the current scan appends the items of the covered codepoints it examined. |
| BrowserController.ScheduleAppends | nerdicon_browser/controllers/browser_controller.py:148-153 | One step's items followed by the rest of the scan's items are the items of the whole remaining schedule. |
| BrowserController.AppendStore | nerdicon_browser/views/main_window.py:158-172 | An append for the current generation extends the store by the batch's items and sets loading accordingly. |
| BrowserController.CompleteScan | nerdicon_browser/controllers/browser_controller.py:84-153 | A complete scan leaves the earlier items followed by one item per covered codepoint of the three ranges, and ends loading. |
| BrowserController.CoveredOfRanges | nerdicon_browser/controllers/browser_controller.py:84-138 | The appended codepoints are ascending and are exactly the covered ones lying in the three ranges. |
| BrowserController.LoadNames | nerdicon_browser/controllers/browser_controller.py:58-65 | A cache hit returns the stored names and leaves the cache unchanged. A miss returns what the font file yields (no names without a file) and stores exactly that. |
| BrowserController.LoadNamesOnce | nerdicon_browser/controllers/browser_controller.py:58-65 | After a lookup, a later lookup of the same family returns the same names, whatever the font file would now yield. |
| BrowserController.StartScanMain | nerdicon_browser/controllers/browser_controller.py:69-157 | A stale start does nothing. Otherwise it installs the names and keeps the store. It starts the scan at the first range exactly when the font loads, and otherwise ends loading. Nothing but the names and the loading flag changes. |
| BrowserController.RebuildFromFont | nerdicon_browser/controllers/browser_controller.py:47-53 | Without a non-empty selected family, nothing happens. Otherwise it bumps the generation by one, empties the store and shows loading. It hands the family and the new generation to the loader and changes nothing else. |
| BrowserController.RebuildCancelsEarlierScans | nerdicon_browser/controllers/browser_controller.py:51-128 | After a rebuild, steps, runs and starts of every earlier scan change nothing. |
| BrowserController.RebuildThenScan | nerdicon_browser/controllers/browser_controller.py:47-157 | A rebuild followed by an undisturbed scan leaves exactly one item per covered codepoint of the three ranges, in ascending order, named from the loaded names, and ends loading. |
| BrowserController.OnFontChanged | nerdicon_browser/controllers/browser_controller.py:38-41 | A font change with a non-empty selected family rebuilds from it: the next generation, an empty store, loading shown, and that family still current and selected; the search text, glyph names and family list are kept. Otherwise it starts nothing, and the window is as `set_selected_font` of the selection leaves it. |
| BrowserController.FontChangeCancelsEarlierScans | nerdicon_browser/controllers/browser_controller.py:38-53 | After a font change that rebuilds, the steps, runs and starts of every scan begun before it change nothing. |
| BrowserController.OnItemClicked | nerdicon_browser/controllers/browser_controller.py:43-45 | A click copies `char()`. The message is "Copied ", then the item's name, then a blank, then its `code_hex()`. |
| BrowserController.OnSearchChanged | nerdicon_browser/controllers/browser_controller.py:35-36 | The search entry's text is stored normalised, and nothing else changes. |
| BrowserController.ClickMessageNamesCodepoint | nerdicon_browser/controllers/browser_controller.py:43-45 | The end of the click message reads back as the clicked codepoint. |
| BrowserController.Init | nerdicon_browser/controllers/browser_controller.py:28-33 | Start-up offers the candidate families, with empty search text and no glyph names. With none, or when the first family is "", no scan starts: generation 0, an empty store, loading not shown. Otherwise the first family becomes current and selected and is rebuilt from: generation 1, an empty store, loading shown. |
| BrowserController.InitThenScan | nerdicon_browser/controllers/browser_controller.py:28-33 | The scan start-up hands off is current: once the loader reports back it runs to completion, leaving one item per covered codepoint of the three ranges, and ends loading. |

## Left out

- GTK and Adw widgets, CSS, the grid's cell factory, the spinner and the toasts are pure UI. Loading is one flag in the window record.
- `copy_to_clipboard` and its delayed check are clipboard I/O. `OnItemClicked` only returns the text and the message.
- The background thread and `GLib.idle_add` are not modelled. The scan is a series of calls to `ScanStep`, and `Run` runs them back to back. Other events happening between steps are modelled only as generation changes (`RebuildCancelsEarlierScans`).
- Pango font loading and coverage queries, including their exception fallbacks, are replaced by the predicate parameter `covered`. Whether the font loaded at all is the parameter `fontReady`.
- `resolve_font_file_for_family` (an `fc-match` subprocess) and `read_glyph_names_from_font` (fontTools) are foreign calls. Their combined result is the parameter `found` of `LoadNames`.
- The `except` branch of `load_names_then_scan` is not modelled: it only turns a failure into an empty map.
- The `except` branch of `_filter_cb` cannot be reached for an integer codepoint.
- The notification `set_selected` sends back into `on_font_changed`, and the filter's `changed` notifications, are toolkit signals and are not modelled.
- The position the dropdown selects after `set_model` is the toolkit's choice. It is the parameter `toolkitSelected`.
- app.py and models/__init__.py, the application bootstrap and re-exports, are not part of this model.
- Text.Lower: lower-cases ASCII letters only. Python's `str.lower()` also maps non-ASCII letters, which would need the Unicode tables. Full lower-casing can also lengthen text (U+0130 becomes two characters), so the length facts of `Text.Lower` and the length bound of `MainWindow.NormalizeSearch` hold for the model only.
- MainWindow.NormalizeSearch: states what the result satisfies rather than naming it `Lower(Strip(text))`. `NormalizeSearchPadded` pins the value for padded input.
- Icon.Char: returns the code point of the character, not a Dafny `char`. A Python string can hold a lone surrogate, which a Dafny `char` cannot.
- The `IconItem` codepoint is unbounded. GObject's `int` property is 32 bits wide, but every codepoint the scan produces fits.
- BrowserController.Init: runs the start-up as one uninterrupted sequence. In the source the handlers are bound (controllers/browser_controller.py:22) before `set_family_list` (:30), whose `set_model` (views/main_window.py:108) can emit `notify::selected`; `_forward_font_change` (views/main_window.py:287-289) then calls `on_font_changed`, a first rebuild, before `__init__` rebuilds again at :33. That re-entrant rebuild is a toolkit signal and is not modelled; it only adds one generation that the second rebuild supersedes.
- MainWindow.Valid: a dropdown position is a `guint`, so the family list is assumed to be shorter than `G_MAXUINT`.

=== FILE: browser_controller.dfy ===
/**
 The controller: the incremental coverage scan over the private-use ranges, the
 generation checks that abandon a superseded scan, the per-font glyph-name cache
 and the reactions to a font or search change.

 The scan is a sequence of calls to `ScanStep`, each the body of one idle callback;
 the font's coverage test is the parameter `covered`.
 */
module BrowserController {
  import opened Wrappers
  import opened Icon
  import opened FontUtils
  import opened MainWindow

  /** The private-use ranges the scan walks, as inclusive (start, end) pairs. */
  const Ranges: seq<(int, int)> := [(0xE000, 0xF8FF), (0xF0000, 0xF8FFF), (0x10F000, 0x10F8FF)]

  /** How many codepoints one idle callback examines at most. */
  const BatchChecks: nat := 1024

  /** `(current_range_index, current_cp)`: the scan's position. */
  datatype Scanner = Scanner(rangeIndex: nat, current: int)

  /** The position a new scan starts from: the start of the first range. */
  function InitialScanner(): Scanner {
    Scanner(0, Ranges[0].0)
  }

  ghost predicate Increasing(xs: seq<int>) {
    forall i, j :: 0 <= i < j < |xs| ==> xs[i] < xs[j]
  }

  /** The integers `lo`, `lo + 1`, ..., `hi - 1`. */
  function Interval(lo: int, hi: int): (r: seq<int>)
    ensures |r| == if lo < hi then hi - lo else 0
    ensures forall k :: 0 <= k < |r| ==> r[k] == lo + k
  {
    seq(if lo < hi then hi - lo else 0, k => lo + k)
  }

  lemma IntervalSplit(lo: int, mid: int, hi: int)
    requires lo <= mid <= hi
    ensures Interval(lo, mid) + Interval(mid, hi) == Interval(lo, hi)
  {
  }

  /** The covered codepoints of `xs`, in the order of `xs`. */
  function Select(covered: int -> bool, xs: seq<int>): (r: seq<int>)
    ensures forall x :: x in r <==> x in xs && covered(x)
    ensures |r| <= |xs|
  {
    if xs == [] then []
    else
      assert xs == [xs[0]] + xs[1..];
      (if covered(xs[0]) then [xs[0]] else []) + Select(covered, xs[1..])
  }

  /** Selecting keeps ascending order. */
  lemma {:induction false} SelectIncreasing(covered: int -> bool, xs: seq<int>)
    requires Increasing(xs)
    ensures Increasing(Select(covered, xs))
    decreases |xs|
  {
    if xs != [] {
      var rest := Select(covered, xs[1..]);
      var r := Select(covered, xs);
      assert Increasing(xs[1..]);
      SelectIncreasing(covered, xs[1..]);
      forall y | y in rest ensures xs[0] < y {
        var j :| 0 <= j < |xs[1..]| && xs[1..][j] == y;
        assert xs[j + 1] == y;
      }
      if covered(xs[0]) {
        assert r == [xs[0]] + rest;
        forall i, j | 0 <= i < j < |r| ensures r[i] < r[j] {
          assert r[j] == rest[j - 1];
          if i > 0 {
            assert r[i] == rest[i - 1];
          } else {
            assert rest[j - 1] in rest;
          }
        }
      } else {
        assert r == rest;
      }
    }
  }

  /** Examining one more codepoint adds it to the selection exactly when it is covered. */
  lemma SelectSnoc(covered: int -> bool, lo: int, hi: int)
    requires lo <= hi
    ensures Select(covered, Interval(lo, hi + 1)) == Select(covered, Interval(lo, hi)) + (if covered(hi) then [hi] else [])
  {
    IntervalSplit(lo, hi, hi + 1);
    assert Interval(hi, hi + 1) == [hi];
    SelectConcat(covered, Interval(lo, hi), [hi]);
    assert [hi][1..] == [];
  }

  lemma {:induction false} SelectConcat(covered: int -> bool, a: seq<int>, b: seq<int>)
    ensures Select(covered, a + b) == Select(covered, a) + Select(covered, b)
    decreases |a|
  {
    if a != [] {
      assert (a + b)[1..] == a[1..] + b;
      SelectConcat(covered, a[1..], b);
    } else {
      assert a + b == b;
    }
  }

  // ----- one step of the scan -----

  /** Where the examining loop of one step stops: after `BatchChecks` codepoints or past the range's end. */
  function StepEnd(s: Scanner): (hi: int)
    requires s.rangeIndex < |Ranges|
    ensures s.current <= hi <= s.current + BatchChecks
    ensures s.current <= Ranges[s.rangeIndex].1 ==> s.current < hi <= Ranges[s.rangeIndex].1 + 1
    ensures s.current > Ranges[s.rangeIndex].1 ==> hi == s.current
  {
    var end := Ranges[s.rangeIndex].1;
    if s.current > end then s.current
    else if s.current + BatchChecks <= end + 1 then s.current + BatchChecks
    else end + 1
  }

  /** The codepoints one step examines, in the order it examines them. */
  function Examined(s: Scanner): (r: seq<int>)
    requires s.rangeIndex < |Ranges|
    ensures |r| <= BatchChecks
    ensures Increasing(r)
    ensures forall x :: x in r ==> s.current <= x <= Ranges[s.rangeIndex].1
  {
    Interval(s.current, StepEnd(s))
  }

  function RangeSize(k: nat): nat
    requires k < |Ranges|
  {
    Ranges[k].1 + 1 - Ranges[k].0
  }

  /** The number of codepoints in ranges `k` onwards. */
  function PendingSize(k: nat): nat
    decreases |Ranges| - k
  {
    if k >= |Ranges| then 0 else RangeSize(k) + PendingSize(k + 1)
  }

  /** Codepoints still to examine plus ranges still to finish: what every continuing step decreases. */
  function Measure(s: Scanner): nat {
    if s.rangeIndex >= |Ranges| then 0
    else
      var end := Ranges[s.rangeIndex].1;
      (if s.current <= end then end + 1 - s.current else 0) + PendingSize(s.rangeIndex + 1) + (|Ranges| - s.rangeIndex)
  }

  /**
   The position after one step: the same range further on, or, once the range is
   exhausted, the next range from its start (past the last range, the index alone moves).
   */
  function Advance(s: Scanner): (r: Scanner)
    requires s.rangeIndex < |Ranges|
    ensures Measure(r) < Measure(s)
    ensures StepEnd(s) <= Ranges[s.rangeIndex].1 ==> r == Scanner(s.rangeIndex, StepEnd(s))
    ensures StepEnd(s) > Ranges[s.rangeIndex].1 ==>
              r.rangeIndex == s.rangeIndex + 1 && (r.rangeIndex < |Ranges| ==> r.current == Ranges[r.rangeIndex].0)
  {
    var hi := StepEnd(s);
    if hi > Ranges[s.rangeIndex].1 then
      if s.rangeIndex + 1 < |Ranges| then Scanner(s.rangeIndex + 1, Ranges[s.rangeIndex + 1].0)
      else Scanner(s.rangeIndex + 1, hi)
    else Scanner(s.rangeIndex, hi)
  }

  /**
   The examining loop of one step, as written: walks from the current codepoint while
   fewer than `BatchChecks` have been examined and the range's end is not passed,
   collecting the covered ones. It computes exactly the covered codepoints of
   `Examined(s)`, and stops where `Advance` continues.
   */
  method ScanBatch(covered: int -> bool, s: Scanner) returns (batch: seq<int>, next: int)
    requires s.rangeIndex < |Ranges|
    ensures batch == Select(covered, Examined(s))
    ensures next == StepEnd(s)
  {
    var end := Ranges[s.rangeIndex].1;
    var cp := s.current;
    var checked := 0;
    batch := [];
    while checked < BatchChecks && cp <= end
      invariant cp == s.current + checked
      invariant checked <= BatchChecks
      invariant checked > 0 ==> cp <= end + 1
      invariant batch == Select(covered, Interval(s.current, cp))
    {
      SelectSnoc(covered, s.current, cp);
      if covered(cp) {
        batch := batch + [cp];
      }
      cp := cp + 1;
      checked := checked + 1;
    }
    assert cp == StepEnd(s);
    next := cp;
  }

  /** A call the scan makes to `append_codepoints(batch, gen, is_last)`. */
  datatype AppendCall = AppendCall(batch: seq<int>, gen: int, isLast: bool)

  /** What one idle callback did: the window and position afterwards, whether to be called again, and its append. */
  datatype StepOutcome = StepOutcome(window: Window, scanner: Scanner, again: bool, appended: Option<AppendCall>)

  /**
   `scan_step()` of the scan tagged `gen`: stops silently once a newer generation
   exists; after the last range appends an empty last batch and stops; otherwise
   examines one batch, moves on, appends the covered codepoints if there are any,
   and asks to be called again.
   */
  function ScanStep(covered: int -> bool, w: Window, gen: int, s: Scanner): (r: StepOutcome)
    ensures r.window.generation == w.generation
    ensures r.again ==> Measure(r.scanner) < Measure(s)
    ensures gen != w.generation ==> r == StepOutcome(w, s, false, None)
    ensures gen == w.generation && s.rangeIndex >= |Ranges| ==>
              && !r.again && r.scanner == s
              && r.appended == Some(AppendCall([], gen, true))
              && r.window.store == w.store && !r.window.loading
    ensures gen == w.generation && s.rangeIndex < |Ranges| ==>
              && r.again
              && r.scanner == Advance(s)
              && (r.appended.Some? <==> exists x :: x in Examined(s) && covered(x))
              && (r.appended.Some? ==> !r.appended.value.isLast && r.appended.value.gen == gen)
              && (r.appended.None? ==> r.window == w)
    ensures r.appended.Some? ==>
              && (r.appended.value.batch != [] || r.appended.value.isLast)
              && r.window == AppendCodepoints(w, r.appended.value.batch, gen, r.appended.value.isLast).0
    ensures r.appended.Some? && !r.appended.value.isLast ==>
              && Increasing(r.appended.value.batch)
              && forall x :: x in r.appended.value.batch <==> x in Examined(s) && covered(x)
  {
    if gen != w.generation then StepOutcome(w, s, false, None)
    else if s.rangeIndex >= |Ranges| then
      StepOutcome(AppendCodepoints(w, [], gen, true).0, s, false, Some(AppendCall([], gen, true)))
    else
      var batch := Select(covered, Examined(s));
      assert batch != [] ==> batch[0] in batch;
      SelectIncreasing(covered, Examined(s));
      if batch != [] then
        StepOutcome(AppendCodepoints(w, batch, gen, false).0, Advance(s), true, Some(AppendCall(batch, gen, false)))
      else
        StepOutcome(w, Advance(s), true, None)
  }

  // ----- the whole scan -----

  /** The scan tagged `gen`, run step after step until a step asks not to be called again. */
  function Run(covered: int -> bool, w: Window, gen: int, s: Scanner): (r: Window)
    decreases Measure(s)
    ensures r.generation == w.generation
    ensures gen != w.generation ==> r == w
  {
    var o := ScanStep(covered, w, gen, s);
    if o.again then Run(covered, o.window, gen, o.scanner) else o.window
  }

  /** Every codepoint the scan examines from `s` on, in the order it examines them. */
  function Schedule(s: Scanner): seq<int>
    decreases Measure(s)
  {
    if s.rangeIndex >= |Ranges| then [] else Examined(s) + Schedule(Advance(s))
  }

  /** The codepoints of ranges `k` onwards, range after range, each in ascending order. */
  function RangeCodepoints(k: nat): seq<int>
    decreases |Ranges| - k
  {
    if k >= |Ranges| then [] else Interval(Ranges[k].0, Ranges[k].1 + 1) + RangeCodepoints(k + 1)
  }

  /** From any position inside a range, the scan examines the rest of that range and then all later ranges. */
  lemma {:induction false} ScheduleFrom(s: Scanner)
    requires s.rangeIndex < |Ranges|
    requires Ranges[s.rangeIndex].0 <= s.current <= Ranges[s.rangeIndex].1 + 1
    ensures Schedule(s) == Interval(s.current, Ranges[s.rangeIndex].1 + 1) + RangeCodepoints(s.rangeIndex + 1)
    decreases Measure(s)
  {
    var k := s.rangeIndex;
    if StepEnd(s) <= Ranges[k].1 {
      ScheduleFrom(Advance(s));
      ScheduleWithinRange(s);
    } else if k + 1 < |Ranges| {
      ScheduleFrom(Advance(s));
      ScheduleNextRange(s);
    } else {
      ScheduleLastRange(s);
    }
  }

  /** A step that stays inside its range leaves the rest of the range to the later steps. */
  lemma ScheduleWithinRange(s: Scanner)
    requires s.rangeIndex < |Ranges| && StepEnd(s) <= Ranges[s.rangeIndex].1
    requires Schedule(Advance(s)) == Interval(StepEnd(s), Ranges[s.rangeIndex].1 + 1) + RangeCodepoints(s.rangeIndex + 1)
    ensures Schedule(s) == Interval(s.current, Ranges[s.rangeIndex].1 + 1) + RangeCodepoints(s.rangeIndex + 1)
  {
    var hi := StepEnd(s);
    ScheduleStep(s);
    IntervalSplit(s.current, hi, Ranges[s.rangeIndex].1 + 1);
    SeqAssoc(Interval(s.current, hi), Interval(hi, Ranges[s.rangeIndex].1 + 1), RangeCodepoints(s.rangeIndex + 1));
  }

  /** A step that finishes a range other than the last hands over to the start of the next. */
  lemma ScheduleNextRange(s: Scanner)
    requires s.rangeIndex + 1 < |Ranges| && StepEnd(s) > Ranges[s.rangeIndex].1
    requires Schedule(Advance(s)) == Interval(Ranges[s.rangeIndex + 1].0, Ranges[s.rangeIndex + 1].1 + 1) + RangeCodepoints(s.rangeIndex + 2)
    ensures Schedule(s) == Interval(s.current, Ranges[s.rangeIndex].1 + 1) + RangeCodepoints(s.rangeIndex + 1)
  {
    ScheduleStep(s);
    RangeCodepointsStep(s.rangeIndex + 1);
  }

  /** A step that finishes the last range leaves nothing to examine. */
  lemma ScheduleLastRange(s: Scanner)
    requires s.rangeIndex + 1 == |Ranges| && StepEnd(s) > Ranges[s.rangeIndex].1
    ensures Schedule(s) == Interval(s.current, Ranges[s.rangeIndex].1 + 1) + RangeCodepoints(s.rangeIndex + 1)
  {
    ScheduleStep(s);
    assert Schedule(Advance(s)) == [];
    assert RangeCodepoints(s.rangeIndex + 1) == [];
  }

  lemma RangeCodepointsStep(k: nat)
    requires k < |Ranges|
    ensures RangeCodepoints(k) == Interval(Ranges[k].0, Ranges[k].1 + 1) + RangeCodepoints(k + 1)
  {
  }

  /** The whole scan examines the three ranges in order, each in ascending order, and nothing else. */
  lemma ScheduleIsAllRanges()
    ensures Schedule(InitialScanner()) == RangeCodepoints(0)
  {
    ScheduleFrom(InitialScanner());
  }

  /** Lies in one of the scanned ranges. */
  ghost predicate InRanges(x: int) {
    exists k :: 0 <= k < |Ranges| && Ranges[k].0 <= x <= Ranges[k].1
  }

  lemma {:induction false} RangeCodepointsShape(k: nat)
    ensures Increasing(RangeCodepoints(k))
    ensures forall x :: x in RangeCodepoints(k) <==> exists j :: k <= j < |Ranges| && Ranges[j].0 <= x <= Ranges[j].1
    ensures k < |Ranges| ==> forall x :: x in RangeCodepoints(k) ==> Ranges[k].0 <= x
    decreases |Ranges| - k
  {
    if k < |Ranges| {
      RangeCodepointsShape(k + 1);
      var a := Interval(Ranges[k].0, Ranges[k].1 + 1);
      var b := RangeCodepoints(k + 1);
      assert forall x :: x in b ==> Ranges[k].1 < x by {
        if k + 1 < |Ranges| {
          assert Ranges[k].1 < Ranges[k + 1].0;
        }
      }
      assert forall x :: x in a <==> Ranges[k].0 <= x <= Ranges[k].1 by {
        forall x | Ranges[k].0 <= x <= Ranges[k].1 ensures x in a {
          assert a[x - Ranges[k].0] == x;
        }
      }
      forall i, j | 0 <= i < j < |a + b| ensures (a + b)[i] < (a + b)[j] {
        if j >= |a| && i < |a| {
          assert (a + b)[j] in b;
        }
        if i >= |a| {
          assert (a + b)[i] == b[i - |a|] && (a + b)[j] == b[j - |a|];
        }
      }
      forall x ensures x in a + b <==> exists j :: k <= j < |Ranges| && Ranges[j].0 <= x <= Ranges[j].1 {
        if x in a {
          assert Ranges[k].0 <= x <= Ranges[k].1;
        }
        if exists j :: k <= j < |Ranges| && Ranges[j].0 <= x <= Ranges[j].1 {
          var j :| k <= j < |Ranges| && Ranges[j].0 <= x <= Ranges[j].1;
          if j == k {
            assert x in a;
          } else {
            assert x in b;
          }
        }
      }
      forall x | x in b ensures Ranges[k].0 <= x {
        assert Ranges[k].1 < x;
      }
    }
  }

  /** Every codepoint of the three ranges is examined exactly once, in ascending order, and no other. */
  lemma EachCodepointExaminedOnce()
    ensures Increasing(Schedule(InitialScanner()))
    ensures forall x :: x in Schedule(InitialScanner()) <==> InRanges(x)
  {
    ScheduleIsAllRanges();
    RangeCodepointsShape(0);
  }

  lemma AppendStore(w: Window, batch: seq<int>, gen: int, isLast: bool)
    requires gen == w.generation
    ensures AppendCodepoints(w, batch, gen, isLast).0 ==
              w.(store := w.store + Items(w.nameByCp, batch), loading := w.loading && !isLast)
  {
  }

  /**
   A scan that is never superseded appends, in order, one item for every covered
   codepoint it has still to examine, and then ends the loading state.
   */
  lemma {:induction false} RunAppendsCovered(covered: int -> bool, w: Window, gen: int, s: Scanner)
    requires gen == w.generation
    ensures Run(covered, w, gen, s) ==
              w.(store := w.store + Items(w.nameByCp, Select(covered, Schedule(s))), loading := false)
    decreases Measure(s)
  {
    if s.rangeIndex >= |Ranges| {
      AppendStore(w, [], gen, true);
      assert w.store + Items(w.nameByCp, []) == w.store;
    } else {
      var o := ScanStep(covered, w, gen, s);
      StepWindow(covered, w, gen, s);
      RunAppendsCovered(covered, o.window, gen, o.scanner);
      ScheduleAppends(covered, w, s);
    }
  }

  /** A continuing step of the current scan appends the covered codepoints it examined. */
  lemma StepWindow(covered: int -> bool, w: Window, gen: int, s: Scanner)
    requires gen == w.generation && s.rangeIndex < |Ranges|
    ensures ScanStep(covered, w, gen, s).window == w.(store := w.store + Items(w.nameByCp, Select(covered, Examined(s))))
    ensures ScanStep(covered, w, gen, s).again && ScanStep(covered, w, gen, s).scanner == Advance(s)
  {
    AppendStore(w, Select(covered, Examined(s)), gen, false);
  }

  lemma ScheduleAppends(covered: int -> bool, w: Window, s: Scanner)
    requires s.rangeIndex < |Ranges|
    ensures w.store + Items(w.nameByCp, Select(covered, Examined(s))) + Items(w.nameByCp, Select(covered, Schedule(Advance(s)))) ==
            w.store + Items(w.nameByCp, Select(covered, Schedule(s)))
  {
    var e := Examined(s);
    var t := Schedule(Advance(s));
    ScheduleStep(s);
    SelectConcat(covered, e, t);
    var a := Select(covered, e);
    var b := Select(covered, t);
    ItemsConcat(w.nameByCp, a, b);
    SeqAssoc(w.store, Items(w.nameByCp, a), Items(w.nameByCp, b));
  }

  lemma ScheduleStep(s: Scanner)
    requires s.rangeIndex < |Ranges|
    ensures Schedule(s) == Examined(s) + Schedule(Advance(s))
  {
  }

  lemma SeqAssoc<T>(x: seq<T>, y: seq<T>, z: seq<T>)
    ensures x + y + z == x + (y + z)
  {
  }

  /**
   A complete scan leaves the store holding the earlier items followed by one item per
   covered codepoint of the three ranges (see `CoveredOfRanges`), and ends loading.
   */
  lemma CompleteScan(covered: int -> bool, w: Window, gen: int)
    requires gen == w.generation
    ensures Run(covered, w, gen, InitialScanner()).store ==
              w.store + Items(w.nameByCp, Select(covered, RangeCodepoints(0)))
    ensures !Run(covered, w, gen, InitialScanner()).loading
  {
    RunAppendsCovered(covered, w, gen, InitialScanner());
    ScheduleIsAllRanges();
  }

  /** The codepoints a complete scan appends are the covered ones of the three ranges, in ascending order. */
  lemma CoveredOfRanges(covered: int -> bool)
    ensures Increasing(Select(covered, RangeCodepoints(0)))
    ensures forall x :: x in Select(covered, RangeCodepoints(0)) <==> InRanges(x) && covered(x)
  {
    EachCodepointExaminedOnce();
    ScheduleIsAllRanges();
    SelectIncreasing(covered, RangeCodepoints(0));
  }

  // ----- starting a scan -----

  /** The browser's names cache: the glyph names already read, per font family. */
  datatype Controller = Controller(namesCache: map<string, map<int, string>>)

  /**
   The name lookup of the background loader: a cached family's names as stored;
   otherwise what the font file yields (`found`; `None` when no font file was found,
   which yields no names), stored in the cache.
   */
  function LoadNames(c: Controller, font: string, found: Option<map<int, string>>): (r: (map<int, string>, Controller))
    ensures font in c.namesCache ==> r.0 == c.namesCache[font] && r.1 == c
    ensures font !in c.namesCache ==> r.0 == ValueOr(found, map[]) && r.1.namesCache == c.namesCache[font := r.0]
  {
    if font in c.namesCache then (c.namesCache[font], c)
    else
      var names := ValueOr(found, map[]);
      (names, c.(namesCache := c.namesCache[font := names]))
  }

  /** A family's names are read once: a later lookup returns them whatever the font file would now yield. */
  lemma LoadNamesOnce(c: Controller, font: string, first: Option<map<int, string>>, later: Option<map<int, string>>)
    ensures LoadNames(LoadNames(c, font, first).1, font, later).0 == LoadNames(c, font, first).0
    ensures LoadNames(LoadNames(c, font, first).1, font, later).1 == LoadNames(c, font, first).1
  {
  }

  /**
   `start_scan_main()` of the scan tagged `gen`: nothing once a newer generation
   exists; otherwise installs the names, and either starts the scan from the first
   range (`fontReady`) or, when the toolkit could not load the font, ends loading.
   */
  function StartScanMain(w: Window, gen: int, names: map<int, string>, fontReady: bool): (r: (Window, Option<Scanner>))
    ensures gen != w.generation ==> r == (w, None)
    ensures gen == w.generation ==> r.0.nameByCp == names && r.0.store == w.store && r.0.generation == w.generation
    ensures gen == w.generation ==> (r.1.Some? <==> fontReady)
    ensures r.1.Some? ==> r.1.value == InitialScanner() && r.0.loading == w.loading
    ensures gen == w.generation && !fontReady ==> !r.0.loading
    ensures gen == w.generation ==> r.0.(nameByCp := w.nameByCp, loading := w.loading) == w
  {
    if gen != w.generation then (w, None)
    else
      var w' := SetNameMapping(w, names);
      if !fontReady then (SetLoading(w', false), None)
      else (w', Some(InitialScanner()))
  }

  /** The background work a rebuild hands off: the family to scan and the generation its results carry. */
  datatype ScanJob = ScanJob(font: string, gen: int)

  /**
   `rebuild_from_font()`: nothing without a (non-empty) selected family; otherwise
   starts a new generation, empties the store, shows loading and hands the family
   to the background loader.
   */
  function RebuildFromFont(w: Window): (r: (Window, Option<ScanJob>))
    ensures GetSelectedFont(w).None? || GetSelectedFont(w) == Some("") ==> r == (w, None)
    ensures GetSelectedFont(w).Some? && GetSelectedFont(w) != Some("") ==>
              && r.1 == Some(ScanJob(GetSelectedFont(w).value, w.generation + 1))
              && r.0.generation == w.generation + 1
              && r.0.store == []
              && r.0.loading
              && r.0.(generation := w.generation, store := w.store, loading := w.loading) == w
  {
    var font := GetSelectedFont(w);
    if font.None? || font.value == "" then (w, None)
    else
      var (w1, gen) := NextGeneration(w);
      var w2 := ClearItems(w1);
      (SetLoading(w2, true), Some(ScanJob(font.value, gen)))
  }

  /** After a rebuild, every scan started earlier is abandoned: its steps and its start change nothing. */
  lemma RebuildCancelsEarlierScans(covered: int -> bool, w: Window, oldGen: int, s: Scanner, names: map<int, string>, ready: bool)
    requires oldGen <= w.generation
    requires RebuildFromFont(w).1.Some?
    ensures ScanStep(covered, RebuildFromFont(w).0, oldGen, s) == StepOutcome(RebuildFromFont(w).0, s, false, None)
    ensures Run(covered, RebuildFromFont(w).0, oldGen, s) == RebuildFromFont(w).0
    ensures StartScanMain(RebuildFromFont(w).0, oldGen, names, ready) == (RebuildFromFont(w).0, None)
  {
  }

  /**
   Switching to a family and letting its scan finish undisturbed leaves the store
   holding exactly one item per covered codepoint of the three ranges, in ascending
   order, named from the names the loader found for that family.
   */
  lemma RebuildThenScan(covered: int -> bool, w: Window, names: map<int, string>)
    requires RebuildFromFont(w).1.Some?
    ensures StartScanMain(RebuildFromFont(w).0, RebuildFromFont(w).1.value.gen, names, true).1 == Some(InitialScanner())
    ensures
      var gen := RebuildFromFont(w).1.value.gen;
      var started := StartScanMain(RebuildFromFont(w).0, gen, names, true).0;
      && Run(covered, started, gen, InitialScanner()).store == Items(names, Select(covered, RangeCodepoints(0)))
      && !Run(covered, started, gen, InitialScanner()).loading
  {
    var rebuilt := RebuildFromFont(w);
    var gen := rebuilt.1.value.gen;
    assert rebuilt.0.generation == gen && rebuilt.0.store == [];
    var started := StartScanMain(rebuilt.0, gen, names, true);
    assert started.0.store == [] && started.0.generation == gen && started.0.nameByCp == names;
    CompleteScan(covered, started.0, gen);
    EmptyConcat(Items(names, Select(covered, RangeCodepoints(0))));
  }

  lemma EmptyConcat<T>(x: seq<T>)
    ensures [] + x == x
  {
  }

  // ----- event handlers -----

  /** `on_font_changed()`: re-selects the dropdown's family and rebuilds from it. */
  function OnFontChanged(w: Window): (r: (Window, Option<ScanJob>))
    requires Valid(w)
    ensures GetSelectedFont(w).Some? && GetSelectedFont(w) != Some("") ==>
              && r.1 == Some(ScanJob(GetSelectedFont(w).value, w.generation + 1))
              && r.0.generation == w.generation + 1
              && r.0.store == []
              && r.0.loading
              && r.0.currentFont == GetSelectedFont(w)
              && GetSelectedFont(r.0) == GetSelectedFont(w)
              && r.0.(generation := w.generation, store := w.store, loading := w.loading,
                      currentFont := w.currentFont, selected := w.selected) == w
    ensures GetSelectedFont(w).None? || GetSelectedFont(w) == Some("") ==>
              r.1.None? && r.0 == SetSelectedFont(w, GetSelectedFont(w))
  {
    var name := GetSelectedFont(w);
    ReselectKeepsFont(w);
    RebuildFromFont(SetSelectedFont(w, name))
  }

  /** Changing the font while a scan runs abandons it: the earlier scan's steps, runs and start change nothing. */
  lemma FontChangeCancelsEarlierScans(covered: int -> bool, w: Window, oldGen: int, s: Scanner, names: map<int, string>, ready: bool)
    requires Valid(w)
    requires oldGen <= w.generation
    requires OnFontChanged(w).1.Some?
    ensures ScanStep(covered, OnFontChanged(w).0, oldGen, s) == StepOutcome(OnFontChanged(w).0, s, false, None)
    ensures Run(covered, OnFontChanged(w).0, oldGen, s) == OnFontChanged(w).0
    ensures StartScanMain(OnFontChanged(w).0, oldGen, names, ready) == (OnFontChanged(w).0, None)
  {
    var changed := OnFontChanged(w).0;
    assert changed.generation == w.generation + 1;
    RebuildCancelsEarlierScans(covered, SetSelectedFont(w, GetSelectedFont(w)), oldGen, s, names, ready);
  }

  /**
   `on_item_clicked(item)`: the text copied to the clipboard, `char()`, and the
   message shown with it, "Copied <name> <code_hex()>".
   */
  function OnItemClicked(item: IconItem): (r: (seq<int>, string))
    ensures r.0 == Char(item)
    ensures |r.1| == 8 + |item.name| + |CodeHex(item)|
    ensures r.1[..7] == "Copied " && r.1[7..7 + |item.name|] == item.name
    ensures r.1[7 + |item.name|] == ' '
    ensures r.1[|r.1| - |CodeHex(item)|..] == CodeHex(item)
  {
    var msg := "Copied " + item.name + " " + CodeHex(item);
    assert msg[..7] == "Copied ";
    assert msg[7..7 + |item.name|] == item.name;
    assert msg[7 + |item.name|] == ' ';
    assert msg[|msg| - |CodeHex(item)|..] == CodeHex(item);
    (Char(item), msg)
  }

  /** The message after a click ends with text that reads back as the clicked codepoint. */
  lemma ClickMessageNamesCodepoint(item: IconItem)
    ensures var msg := OnItemClicked(item).1;
            ParseCodeHex(msg[|msg| - |CodeHex(item)|..]) == Some(item.codepoint)
  {
    CodeHexRoundTrip(item);
  }

  /** `on_search_changed(text)`: the entry's text becomes the normalised search text; nothing else changes. */
  function OnSearchChanged(w: Window, text: string): (r: Window)
    ensures r.searchText == NormalizeSearch(Some(text))
    ensures r.(searchText := w.searchText) == w
  {
    SetSearchText(w, Some(text))
  }

  /**
   The controller's start-up: offers the candidate families (`listed` as the toolkit
   lists them), and if there are any selects the first and rebuilds from it.
   `toolkitSelected` is the position the dropdown picks for its new model.
   */
  function Init(listed: Option<seq<string>>, toolkitSelected: nat): (r: (Window, Option<ScanJob>))
    requires |CandidateFontFamilies(listed)| < InvalidListPosition
    ensures r.0.familyList == CandidateFontFamilies(listed)
    ensures CandidateFontFamilies(listed) == [] ==> r.1.None? && r.0.generation == 0
    ensures CandidateFontFamilies(listed) != [] && CandidateFontFamilies(listed)[0] != "" ==>
              && r.1 == Some(ScanJob(CandidateFontFamilies(listed)[0], 1))
              && r.0.generation == 1
              && r.0.store == []
              && r.0.loading
              && GetSelectedFont(r.0) == Some(CandidateFontFamilies(listed)[0])
    ensures CandidateFontFamilies(listed) == [] || CandidateFontFamilies(listed)[0] == "" ==>
              r.1.None? && r.0.generation == 0 && r.0.store == [] && !r.0.loading
    ensures r.0.searchText == "" && r.0.nameByCp == map[]
    ensures CandidateFontFamilies(listed) != [] ==> r.0.currentFont == Some(CandidateFontFamilies(listed)[0])
  {
    var families := CandidateFontFamilies(listed);
    var w := SetFamilyList(NewWindow(), families, toolkitSelected);
    if families != [] then
      var w' := SetSelectedFont(w, Some(families[0]));
      SelectThenGet(w, Some(families[0]));
      RebuildFromFont(w')
    else
      (w, None)
  }

  /**
   The scan start-up hands off is the current one: once the loader reports back,
   the scan runs to completion and fills the store with the first family's glyphs.
   */
  lemma InitThenScan(covered: int -> bool, listed: Option<seq<string>>, toolkitSelected: nat, names: map<int, string>)
    requires |CandidateFontFamilies(listed)| < InvalidListPosition
    requires CandidateFontFamilies(listed) != [] && CandidateFontFamilies(listed)[0] != ""
    ensures StartScanMain(Init(listed, toolkitSelected).0, 1, names, true).1 == Some(InitialScanner())
    ensures
      var started := StartScanMain(Init(listed, toolkitSelected).0, 1, names, true).0;
      && Run(covered, started, 1, InitialScanner()).store == Items(names, Select(covered, RangeCodepoints(0)))
      && !Run(covered, started, 1, InitialScanner()).loading
  {
    var init := Init(listed, toolkitSelected);
    assert init.0.generation == 1 && init.0.store == [];
    var started := StartScanMain(init.0, 1, names, true);
    assert started.0.store == [] && started.0.generation == 1 && started.0.nameByCp == names;
    CompleteScan(covered, started.0, 1);
    EmptyConcat(Items(names, Select(covered, RangeCodepoints(0))));
  }
}

=== FILE: font_utils.dfy ===
/**
 Choosing the font families the dropdown offers, from the names of the families
 the toolkit lists.
 */
module FontUtils {
  import opened Wrappers
  import opened Text

  /** Strictly ascending in Python's string order, hence also free of duplicates. */
  ghost predicate StrictlySorted(s: seq<string>) {
    forall i, j :: 0 <= i < j < |s| ==> Less(s[i], s[j])
  }

  /** Inserts `x` into a strictly sorted sequence unless it is already there. */
  function Insert(x: string, s: seq<string>): (r: seq<string>)
    requires StrictlySorted(s)
    ensures StrictlySorted(r)
    ensures forall y :: y in r <==> y == x || y in s
  {
    if s == [] then [x]
    else if x == s[0] then s
    else if Less(x, s[0]) then
      assert forall j :: 0 < j < |s| ==> Less(s[0], s[j]);
      forall j | 0 <= j < |s| ensures Less(x, s[j]) {
        if j > 0 { LessTransitive(x, s[0], s[j]); }
      }
      [x] + s
    else
      LessTotal(x, s[0]);
      var t := Insert(x, s[1..]);
      assert forall y :: y in t ==> Less(s[0], y) by {
        forall y | y in t ensures Less(s[0], y) {
          if y != x {
            var j :| 0 <= j < |s[1..]| && s[1..][j] == y;
            assert Less(s[0], s[j + 1]);
          }
        }
      }
      assert s == [s[0]] + s[1..];
      [s[0]] + t
  }

  /** Python's `sorted(dict.fromkeys(xs))`: the distinct elements of `xs` in ascending order. */
  function SortedUnique(xs: seq<string>): (r: seq<string>)
    ensures StrictlySorted(r)
    ensures forall y :: y in r <==> y in xs
    ensures forall i, j :: 0 <= i < j < |r| ==> r[i] != r[j]
  {
    if xs == [] then []
    else
      var r := Insert(xs[|xs| - 1], SortedUnique(xs[..|xs| - 1]));
      assert xs == xs[..|xs| - 1] + [xs[|xs| - 1]];
      assert forall i, j :: 0 <= i < j < |r| ==> r[i] != r[j] by {
        forall i, j | 0 <= i < j < |r| ensures r[i] != r[j] {
          LessIrreflexive(r[i]);
        }
      }
      r
  }

  /** A strictly sorted sequence is determined by its elements: `SortedUnique` is the only answer. */
  lemma {:induction false} SortedUniqueCanonical(a: seq<string>, b: seq<string>)
    requires StrictlySorted(a) && StrictlySorted(b)
    requires forall y :: y in a <==> y in b
    ensures a == b
    decreases |a|
  {
    SameElementsBothEmpty(a, b);
    if a != [] {
      if a[0] != b[0] {
        assert a[0] in b;
        assert b[0] in a;
        var i :| 0 <= i < |b| && b[i] == a[0];
        var j :| 0 <= j < |a| && a[j] == b[0];
        LessIrreflexive(a[0]);
        LessIrreflexive(b[0]);
        assert Less(b[0], a[0]);
        assert Less(a[0], b[0]);
        LessTransitive(a[0], b[0], a[0]);
        assert false;
      }
      assert a == [a[0]] + a[1..] && b == [b[0]] + b[1..];
      forall y ensures y in a[1..] <==> y in b[1..] {
        if y in a[1..] {
          var k :| 0 <= k < |a[1..]| && a[1..][k] == y;
          assert Less(a[0], a[k + 1]);
          LessIrreflexive(y);
          assert y in b && y != b[0];
        }
        if y in b[1..] {
          var k :| 0 <= k < |b[1..]| && b[1..][k] == y;
          assert Less(b[0], b[k + 1]);
          LessIrreflexive(y);
          assert y in a && y != a[0];
        }
      }
      SortedUniqueCanonical(a[1..], b[1..]);
      assert a == [a[0]] + a[1..] && b == [b[0]] + b[1..];
    }
  }

  lemma SameElementsBothEmpty(a: seq<string>, b: seq<string>)
    requires forall y :: y in a <==> y in b
    ensures a == [] <==> b == []
  {
    if a != [] {
      assert a[0] in b;
    }
    if b != [] {
      assert b[0] in a;
    }
  }

  /** The elements of `xs` satisfying `p`, in their original order (a list comprehension with a condition). */
  function Keep(xs: seq<string>, p: string -> bool): (r: seq<string>)
    ensures forall y :: y in r <==> y in xs && p(y)
  {
    if xs == [] then []
    else
      assert xs == xs[..|xs| - 1] + [xs[|xs| - 1]];
      Keep(xs[..|xs| - 1], p) + (if p(xs[|xs| - 1]) then [xs[|xs| - 1]] else [])
  }

  /** A family name that mentions "nerd" in any letter case. */
  predicate IsNerdy(name: string) {
    Contains(Lower(name), "nerd") || Contains(Lower(name), "symbols nerd")
  }

  /** The second test in `IsNerdy` is implied by the first. */
  lemma NerdyIsContainsNerd(name: string)
    ensures IsNerdy(name) <==> Contains(Lower(name), "nerd")
  {
    if Contains(Lower(name), "symbols nerd") {
      var i: nat :| OccursAt(Lower(name), "symbols nerd", i);
      assert Lower(name)[i + 8..i + 12] == "symbols nerd"[8..12];
      assert OccursAt(Lower(name), "nerd", i + 8);
    }
  }

  /** The family names accepted when no name mentions "nerd". */
  const Preferred: set<string> := {"Symbols Nerd Font", "Symbols Nerd Font Mono", "Nerd Font", "Monospace", "monospace"}

  predicate IsPreferred(name: string) {
    name in Preferred
  }

  /**
   `candidate_font_families()`, given the family names the toolkit lists (`None` when
   listing them raised): the names mentioning "nerd" if there are any, otherwise the
   listed names in `Preferred`, otherwise every listed name; always sorted and without
   duplicates.
   */
  function CandidateFontFamilies(families: Option<seq<string>>): (r: seq<string>)
    ensures families.None? ==> r == []
    ensures StrictlySorted(r)
    ensures forall i, j :: 0 <= i < j < |r| ==> r[i] != r[j]
    ensures forall y :: y in r ==> families.Some? && y in families.value
    ensures families.Some? && (exists n :: n in families.value && IsNerdy(n)) ==>
              forall y :: y in r <==> y in families.value && IsNerdy(y)
    ensures families.Some? && (forall n :: n in families.value ==> !IsNerdy(n)) && (exists n :: n in families.value && n in Preferred) ==>
              forall y :: y in r <==> y in families.value && y in Preferred
    ensures families.Some? && (forall n :: n in families.value ==> !IsNerdy(n) && n !in Preferred) ==>
              forall y :: y in r <==> y in families.value
  {
    match families
    case None => []
    case Some(names) =>
      var nerdy := Keep(names, IsNerdy);
      if nerdy != [] then
        assert nerdy[0] in nerdy;
        SortedUnique(nerdy)
      else
        var avail := Keep(names, IsPreferred);
        if avail != [] then
          assert avail[0] in avail;
          SortedUnique(avail)
        else
          SortedUnique(names)
  }

  /** An empty family list offers nothing. */
  lemma CandidatesOfEmpty()
    ensures CandidateFontFamilies(Some([])) == []
  {
  }

  /**
   Every preferred name except the two spellings of "Monospace" mentions "nerd", so the
   preferred fallback can only ever pick those two.
   */
  lemma PreferredFallbackIsMonospace(names: seq<string>)
    requires forall n :: n in names ==> !IsNerdy(n)
    requires exists n :: n in names && n in Preferred
    ensures forall y :: y in CandidateFontFamilies(Some(names)) ==> y == "Monospace" || y == "monospace"
  {
    var r := CandidateFontFamilies(Some(names));
    assert forall y :: y in r <==> y in names && y in Preferred;
    forall y | y in r ensures y == "Monospace" || y == "monospace" {
      assert y in names && y in Preferred;
      PreferredNotNerdy(y);
    }
  }

  /** A preferred name that does not mention "nerd" is one of the two "monospace" spellings. */
  lemma PreferredNotNerdy(y: string)
    requires y in Preferred && !IsNerdy(y)
    ensures y == "Monospace" || y == "monospace"
  {
    if y == "Symbols Nerd Font" || y == "Symbols Nerd Font Mono" || y == "Nerd Font" {
      ContainsNerd(y);
      assert false;
    }
  }

  lemma ContainsNerd(y: string)
    requires y == "Symbols Nerd Font" || y == "Symbols Nerd Font Mono" || y == "Nerd Font"
    ensures IsNerdy(y)
  {
    var at := if y == "Nerd Font" then 0 else 8;
    assert Lower(y)[at..at + 4] == "nerd";
    assert OccursAt(Lower(y), "nerd", at);
  }
}

=== FILE: hex.dfy ===
/**
 Python's zero-padded hexadecimal format specifications `{n:0<width>X}` and
 `{n:0<width>x}`, and the digit value that reads such text back.
 */
module Hex {
  import opened Text

  predicate IsHexDigit(c: char) {
    ('0' <= c <= '9') || ('A' <= c <= 'F') || ('a' <= c <= 'f')
  }

  /** A digit Python's format writes for the given case. */
  predicate IsCaseDigit(c: char, upper: bool) {
    ('0' <= c <= '9') || (upper && 'A' <= c <= 'F') || (!upper && 'a' <= c <= 'f')
  }

  predicate AllCaseDigits(s: string, upper: bool) {
    forall k :: 0 <= k < |s| ==> IsCaseDigit(s[k], upper)
  }

  predicate AllHexDigits(s: string) {
    forall k :: 0 <= k < |s| ==> IsHexDigit(s[k])
  }

  function DigitChar(d: nat, upper: bool): (c: char)
    requires d < 16
    ensures IsCaseDigit(c, upper)
  {
    if d < 10 then (d + '0' as int) as char
    else if upper then (d - 10 + 'A' as int) as char
    else (d - 10 + 'a' as int) as char
  }

  function DigitValue(c: char): (d: nat)
    requires IsHexDigit(c)
    ensures d < 16
  {
    if '0' <= c <= '9' then c as int - '0' as int
    else if 'A' <= c <= 'F' then c as int - 'A' as int + 10
    else c as int - 'a' as int + 10
  }

  lemma DigitRoundTrip(d: nat, upper: bool)
    requires d < 16
    ensures DigitValue(DigitChar(d, upper)) == d
  {
  }

  /** The number a string of hexadecimal digits denotes (most significant first). */
  function HexValue(s: string): nat
    requires AllHexDigits(s)
  {
    if s == [] then 0 else HexValue(s[..|s| - 1]) * 16 + DigitValue(s[|s| - 1])
  }

  /** The shortest hexadecimal numeral of `n`: "0" for zero, otherwise no leading zero. */
  function Digits(n: nat, upper: bool): (r: string)
    ensures |r| >= 1
    ensures AllCaseDigits(r, upper)
    ensures |r| > 1 ==> r[0] != '0'
  {
    if n < 16 then [DigitChar(n, upper)] else Digits(n / 16, upper) + [DigitChar(n % 16, upper)]
  }

  /** Reading back the shortest numeral of `n` gives `n`. */
  lemma {:induction false} DigitsRoundTrip(n: nat, upper: bool)
    ensures AllHexDigits(Digits(n, upper))
    ensures HexValue(Digits(n, upper)) == n
  {
    var r := Digits(n, upper);
    if n < 16 {
      DigitRoundTrip(n, upper);
      assert r[..0] == [];
    } else {
      DigitsRoundTrip(n / 16, upper);
      DigitRoundTrip(n % 16, upper);
      assert r[..|r| - 1] == Digits(n / 16, upper);
    }
  }

  function Zeros(k: nat): (r: string)
    ensures |r| == k
    ensures forall i :: 0 <= i < k ==> r[i] == '0'
  {
    seq(k, i => '0')
  }

  /** Leading zeros do not change the value of a numeral. */
  lemma {:induction false} ZerosValue(k: nat, s: string)
    requires AllHexDigits(s)
    ensures AllHexDigits(Zeros(k) + s)
    ensures HexValue(Zeros(k) + s) == HexValue(s)
    decreases |s|
  {
    var t := Zeros(k) + s;
    if s != [] {
      ZerosValue(k, s[..|s| - 1]);
      assert t[..|t| - 1] == Zeros(k) + s[..|s| - 1];
    } else {
      assert t == Zeros(k);
      ZerosOnly(k);
    }
  }

  lemma {:induction false} ZerosOnly(k: nat)
    ensures AllHexDigits(Zeros(k))
    ensures HexValue(Zeros(k)) == 0
  {
    if k > 0 {
      ZerosOnly(k - 1);
      assert Zeros(k)[..k - 1] == Zeros(k - 1);
    }
  }

  /**
   Python's `format(n, "0<width>X")` (`upper`) or `"0<width>x"`: a minus sign for a
   negative `n`, then the digits of |n| padded with zeros after the sign so that
   the whole text is at least `width` characters long.
   */
  function FormatHex(n: int, width: nat, upper: bool): (r: string)
    ensures |r| >= width
    ensures n >= 0 ==> AllCaseDigits(r, upper)
    ensures n < 0 ==> |r| >= 2 && r[0] == '-' && AllCaseDigits(r[1..], upper)
    ensures |r| > width && n >= 0 ==> r[0] != '0' || |r| == 1
    ensures |r| > width && n < 0 ==> r[1] != '0'
  {
    var sign := if n < 0 then "-" else "";
    var digits := Digits(if n < 0 then -n else n, upper);
    var pad := if |sign| + |digits| < width then width - |sign| - |digits| else 0;
    var r := sign + Zeros(pad) + digits;
    assert n < 0 ==> r[1..] == Zeros(pad) + digits;
    r
  }

  /** The digits of a formatted number, read back, are its magnitude: nothing is truncated. */
  lemma FormatHexValue(n: int, width: nat, upper: bool)
    ensures n >= 0 ==> AllHexDigits(FormatHex(n, width, upper)) && HexValue(FormatHex(n, width, upper)) == n
    ensures n < 0 ==> AllHexDigits(FormatHex(n, width, upper)[1..]) && HexValue(FormatHex(n, width, upper)[1..]) == -n
  {
    var m := if n < 0 then -n else n;
    var digits := Digits(m, upper);
    var sign := if n < 0 then "-" else "";
    var pad := if |sign| + |digits| < width then width - |sign| - |digits| else 0;
    DigitsRoundTrip(m, upper);
    ZerosValue(pad, digits);
    FormatHexLayout(n, width, upper);
  }

  /** The formatted text is the sign followed by the padded digits of the magnitude. */
  lemma FormatHexLayout(n: int, width: nat, upper: bool)
    ensures var m := if n < 0 then -n else n;
            var sign := if n < 0 then "-" else "";
            var pad := if |sign| + |Digits(m, upper)| < width then width - |sign| - |Digits(m, upper)| else 0;
            && (n >= 0 ==> FormatHex(n, width, upper) == Zeros(pad) + Digits(m, upper))
            && (n < 0 ==> FormatHex(n, width, upper)[1..] == Zeros(pad) + Digits(m, upper))
  {
    var m := if n < 0 then -n else n;
    var digits := Digits(m, upper);
    var sign := if n < 0 then "-" else "";
    var pad := if |sign| + |digits| < width then width - |sign| - |digits| else 0;
    assert FormatHex(n, width, upper) == sign + (Zeros(pad) + digits);
  }

  lemma {:induction false} LowerDigits(n: nat)
    ensures Lower(Digits(n, true)) == Digits(n, false)
  {
    if n >= 16 {
      LowerDigits(n / 16);
      LowerConcat(Digits(n / 16, true), [DigitChar(n % 16, true)]);
    }
  }

  /** Lower-casing the upper-case format gives the lower-case format. */
  lemma LowerFormatHex(n: int, width: nat)
    ensures Lower(FormatHex(n, width, true)) == FormatHex(n, width, false)
  {
    var sign := if n < 0 then "-" else "";
    var m := if n < 0 then -n else n;
    var pad := if |sign| + |Digits(m, true)| < width then width - |sign| - |Digits(m, true)| else 0;
    LowerDigits(m);
    LowerConcat(sign + Zeros(pad), Digits(m, true));
    LowerConcat(sign, Zeros(pad));
    assert Lower(Zeros(pad)) == Zeros(pad);
  }
}

=== FILE: icon.dfy ===
/** One glyph of the browsed font: its display name and its Unicode codepoint. */
module Icon {
  import opened Wrappers
  import opened Text
  import opened Hex

  datatype IconItem = IconItem(name: string, codepoint: int)

  /** The largest codepoint Python's `chr` accepts. */
  const MaxCodepoint: int := 0x10FFFF

  /**
   `item.code_hex()`: "U+" and the codepoint in upper-case hexadecimal, zero-padded
   to at least four characters (Python's `{:04X}`; a negative codepoint keeps its sign).
   */
  function CodeHex(item: IconItem): (r: string)
    ensures |r| >= 6 && r[..2] == "U+"
    ensures item.codepoint >= 0 ==> AllCaseDigits(r[2..], true)
    ensures item.codepoint < 0 ==> r[2] == '-' && AllCaseDigits(r[3..], true)
    ensures |r| > 6 ==> r[2] != '0'
    ensures item.codepoint < 0 && |r| > 6 ==> r[3] != '0'
  {
    var digits := FormatHex(item.codepoint, 4, true);
    var r := "U+" + digits;
    assert r[2..] == digits;
    assert item.codepoint < 0 ==> r[3..] == digits[1..] && r[3] == digits[1];
    r
  }

  /** `code_hex()` has no whitespace at its ends, so stripping it changes nothing. */
  lemma CodeHexTrimmed(item: IconItem)
    ensures Trimmed(CodeHex(item))
  {
    var r := CodeHex(item);
    if item.codepoint >= 0 {
      assert r[2..][|r| - 3] == r[|r| - 1];
    } else {
      assert r[3..][|r| - 4] == r[|r| - 1];
    }
  }

  /** Lower-casing `code_hex()` gives "u+" and the lower-case digits. */
  lemma LowerCodeHex(item: IconItem)
    ensures Lower(CodeHex(item)) == "u+" + FormatHex(item.codepoint, 4, false)
  {
    LowerFormatHex(item.codepoint, 4);
    LowerConcat("U+", FormatHex(item.codepoint, 4, true));
    assert Lower("U+") == "u+";
  }

  /**
   `item.char()`, as the code points of the Python string it returns: the one
   character `chr(codepoint)` when Python accepts the codepoint, else "?".
   (A Python string may hold a lone surrogate, which a Dafny `char` cannot.)
   */
  function Char(item: IconItem): (r: seq<int>)
    ensures |r| == 1
    ensures 0 <= item.codepoint <= MaxCodepoint ==> r[0] == item.codepoint
    ensures !(0 <= item.codepoint <= MaxCodepoint) ==> r == ['?' as int]
  {
    if 0 <= item.codepoint <= MaxCodepoint then [item.codepoint] else ['?' as int]
  }

  /** For a codepoint that is a Unicode scalar value, `char()` is that one-character Dafny string. */
  lemma CharIsScalar(item: IconItem)
    requires 0 <= item.codepoint < 0xD800 || 0xE000 <= item.codepoint <= MaxCodepoint
    ensures Char(item) == [(item.codepoint as char) as int]
  {
  }

  /** Reads text of the form "U+<hex>" or "U+-<hex>" back into a codepoint. */
  function ParseCodeHex(s: string): (r: Option<int>)
    ensures r.Some? ==> |s| > 2 && s[..2] == "U+"
  {
    if |s| < 3 || s[..2] != "U+" then None
    else
      var t := s[2..];
      if t[0] == '-' then
        if |t| > 1 && AllHexDigits(t[1..]) then Some(-(HexValue(t[1..]) as int)) else None
      else if AllHexDigits(t) then Some(HexValue(t))
      else None
  }

  /** `code_hex()` loses nothing: reading it back yields the codepoint. */
  lemma CodeHexRoundTrip(item: IconItem)
    ensures ParseCodeHex(CodeHex(item)) == Some(item.codepoint)
  {
    var n := item.codepoint;
    var digits := FormatHex(n, 4, true);
    FormatHexValue(n, 4, true);
    assert CodeHex(item)[2..] == digits;
    assert CodeHex(item)[..2] == "U+";
    if n >= 0 {
      assert digits[0] != '-';
    }
  }
}

=== FILE: main_window.dfy ===
/**
 The state the browser window keeps and the operations the controller calls on it:
 the scan generation used to cancel stale scans, the store of icon items, the
 glyph-name mapping, the search filter and the font dropdown.
 */
module MainWindow {
  import opened Wrappers
  import opened Text
  import opened Hex
  import opened Icon

  /** The dropdown position meaning "nothing selected" (`Gtk.INVALID_LIST_POSITION`, `G_MAXUINT`). */
  const InvalidListPosition: nat := 0xFFFF_FFFF

  datatype Window = Window(
    nameByCp: map<int, string>,   // glyph names of the current font
    currentFont: Option<string>,
    searchText: string,           // normalised search text
    familyList: seq<string>,
    selected: nat,                // the dropdown's selected position
    store: seq<IconItem>,         // the base list store behind the grid
    generation: int,              // the scan generation
    loading: bool)                // the spinner is shown and the dropdown disabled

  /** A list model position is a `guint`, so the family list holds fewer than `G_MAXUINT` entries. */
  ghost predicate Valid(w: Window) {
    |w.familyList| < InvalidListPosition
  }

  /** The window as its constructor leaves it. */
  function NewWindow(): (w: Window)
    ensures Valid(w) && w.store == [] && w.generation == 0 && w.searchText == ""
    ensures w.nameByCp == map[] && w.currentFont.None? && w.familyList == [] && GetSelectedFont(w).None? && !w.loading
  {
    Window(map[], None, "", [], InvalidListPosition, [], 0, false)
  }

  // ----- scan generation -----

  /** `get_generation()`: the number of the current scan generation. */
  function GetGeneration(w: Window): (r: int)
    ensures r == w.generation
  {
    w.generation
  }

  /** `next_generation()`: starts a new generation and returns its number. */
  function NextGeneration(w: Window): (r: (Window, int))
    ensures r.1 == w.generation + 1 && r.0.generation == r.1
    ensures r.0 == w.(generation := r.1)
  {
    var g := w.generation + 1;
    (w.(generation := g), g)
  }

  /** The generation `next_generation()` hands out is the one `get_generation()` reads afterwards, and it is new. */
  lemma NextThenGet(w: Window)
    ensures GetGeneration(NextGeneration(w).0) == NextGeneration(w).1
    ensures NextGeneration(w).1 > GetGeneration(w)
  {
  }

  // ----- item store -----

  /** The name an appended item gets: the font's glyph name if it has a non-empty one, else "Glyph XXXX". */
  function ItemName(names: map<int, string>, cp: int): (r: string)
    ensures cp in names && names[cp] != "" ==> r == names[cp]
    ensures !(cp in names && names[cp] != "") ==> r == "Glyph " + FormatHex(cp, 4, true)
  {
    if cp in names && names[cp] != "" then names[cp] else "Glyph " + FormatHex(cp, 4, true)
  }

  /** The fallback name "Glyph XXXX" carries the codepoint: its digits read back as `code_hex()` does. */
  lemma FallbackNameReadsBack(names: map<int, string>, cp: int)
    requires !(cp in names && names[cp] != "")
    ensures var r := ItemName(names, cp);
            |r| > 6 && r[..6] == "Glyph " && ParseCodeHex("U+" + r[6..]) == Some(cp)
  {
    var r := ItemName(names, cp);
    assert r[6..] == FormatHex(cp, 4, true);
    assert "U+" + r[6..] == CodeHex(IconItem(r, cp));
    CodeHexRoundTrip(IconItem(r, cp));
  }

  /** One item per codepoint, in the same order. */
  function Items(names: map<int, string>, cps: seq<int>): (r: seq<IconItem>)
    ensures |r| == |cps|
    ensures forall i :: 0 <= i < |cps| ==> r[i] == IconItem(ItemName(names, cps[i]), cps[i])
  {
    seq(|cps|, i requires 0 <= i < |cps| => IconItem(ItemName(names, cps[i]), cps[i]))
  }

  lemma ItemsConcat(names: map<int, string>, a: seq<int>, b: seq<int>)
    ensures Items(names, a + b) == Items(names, a) + Items(names, b)
  {
  }

  /** `set_loading(loading)`: shows or hides the loading state and changes nothing else. */
  function SetLoading(w: Window, loading: bool): (r: Window)
    ensures r.loading == loading
    ensures r.(loading := w.loading) == w
  {
    w.(loading := loading)
  }

  /** `clear_items()`: empties the store and changes nothing else. */
  function ClearItems(w: Window): (r: Window)
    ensures r.store == []
    ensures r.(store := w.store) == w
  {
    w.(store := [])
  }

  /**
   `append_codepoints(batch, gen, is_last)`: ignored unless `gen` is the current
   generation; otherwise appends one item per codepoint and, for the last batch,
   ends the loading state. The returned flag is always false (it tells the idle
   loop not to call again).
   */
  function AppendCodepoints(w: Window, batch: seq<int>, gen: int, isLast: bool): (r: (Window, bool))
    ensures !r.1
    ensures gen != w.generation ==> r.0 == w
    ensures gen == w.generation ==>
              && |r.0.store| == |w.store| + |batch|
              && r.0.store[..|w.store|] == w.store
              && (forall i :: 0 <= i < |batch| ==>
                    r.0.store[|w.store| + i] == IconItem(ItemName(w.nameByCp, batch[i]), batch[i]))
              && r.0.loading == (w.loading && !isLast)
              && r.0.(store := w.store, loading := w.loading) == w
  {
    if gen != w.generation then (w, false)
    else
      var w' := w.(store := w.store + Items(w.nameByCp, batch));
      assert w'.store[..|w.store|] == w.store;
      (if isLast then SetLoading(w', false) else w', false)
  }

  /** Once a new generation is started, every append tagged with an earlier one is ignored. */
  lemma StaleAppendIgnored(w: Window, batch: seq<int>, gen: int, isLast: bool)
    requires gen <= w.generation
    ensures AppendCodepoints(NextGeneration(w).0, batch, gen, isLast).0 == NextGeneration(w).0
  {
  }

  /** `set_name_mapping(mapping)`: installs the glyph names later appends use, and changes nothing else. */
  function SetNameMapping(w: Window, mapping: map<int, string>): (r: Window)
    ensures r.nameByCp == mapping
    ensures r.(nameByCp := w.nameByCp) == w
  {
    w.(nameByCp := mapping)
  }

  // ----- search filter -----

  /**
   How `set_search_text` normalises the entry's text: `None` is "", then stripped and
   lower-cased. Lower-casing is the ASCII model of `Text.Lower`, which keeps the length;
   full Unicode lower-casing can lengthen text.
   */
  function NormalizeSearch(text: Option<string>): (r: string)
    ensures Trimmed(r)
    ensures NoAsciiUpper(r)
    ensures |r| <= |ValueOr(text, "")|
    ensures r == "" <==> AllSpace(ValueOr(text, ""))
  {
    var s := Strip(ValueOr(text, ""));
    LowerKeepsTrimmed(s);
    LowerIdempotent(s);
    Lower(s)
  }

  /** Normalising normalised text changes nothing. */
  lemma NormalizeSearchIdempotent(text: Option<string>)
    ensures NormalizeSearch(Some(NormalizeSearch(text))) == NormalizeSearch(text)
  {
    var r := NormalizeSearch(text);
    StripTrimmed(r);
    LowerIdempotent(Strip(ValueOr(text, "")));
  }

  /** Text typed with blanks around it is searched for without them, lower-cased. */
  lemma NormalizeSearchPadded(before: string, core: string, after: string)
    requires AllSpace(before) && AllSpace(after)
    requires core != [] && Trimmed(core)
    ensures NormalizeSearch(Some(before + core + after)) == Lower(core)
  {
    StripPadded(before, core, after);
  }

  /** `set_search_text(text)`: stores the normalised text as the filter's search text, and changes nothing else. */
  function SetSearchText(w: Window, text: Option<string>): (r: Window)
    ensures r.searchText == NormalizeSearch(text)
    ensures r.(searchText := w.searchText) == w
  {
    w.(searchText := NormalizeSearch(text))
  }

  /**
   The text `_filter_cb` searches: `f"{name} U+{cp:04X} {cp:04x}"`, lower-cased. The
   "U+" and the upper-case digits are exactly `code_hex()`.
   */
  function Haystack(item: IconItem): string {
    Lower(item.name + " " + CodeHex(item) + " " + FormatHex(item.codepoint, 4, false))
  }

  /** `_filter_cb(item)`: empty search text shows everything, otherwise a substring match. */
  predicate Accepts(searchText: string, item: IconItem) {
    searchText == "" || Contains(Haystack(item), searchText)
  }

  /**
   `_filter_cb(item)` with the window's search text: every item when the text is
   empty, otherwise the items whose lower-cased name, "u+" digits or lower-case
   digits, joined by blanks, contain the text.
   */
  function FilterCb(w: Window, item: IconItem): (r: bool)
    ensures w.searchText == "" ==> r
    ensures w.searchText != "" ==>
              (r <==> exists i: nat :: OccursAt(Lower(item.name) + " " + Lower(CodeHex(item)) + " " + FormatHex(item.codepoint, 4, false), w.searchText, i))
  {
    HaystackParts(item);
    Accepts(w.searchText, item)
  }

  lemma HaystackParts(item: IconItem)
    ensures Haystack(item) ==
              Lower(item.name) + " " + Lower(CodeHex(item)) + " " + FormatHex(item.codepoint, 4, false)
  {
    LowerJoin(item.name, CodeHex(item), FormatHex(item.codepoint, 4, false));
    LowerFormatHex(item.codepoint, 4);
    LowerIdempotent(FormatHex(item.codepoint, 4, true));
  }

  /** Lower-casing three words joined by blanks lower-cases each word. */
  lemma LowerJoin(a: string, b: string, c: string)
    ensures Lower(a + " " + b + " " + c) == Lower(a) + " " + Lower(b) + " " + Lower(c)
  {
    LowerConcat(a + " " + b + " ", c);
    LowerConcat(a + " " + b, " ");
    LowerConcat(a + " ", b);
    LowerConcat(a, " ");
    assert Lower(" ") == " ";
  }

  /**
   Typing an item's own `code_hex()`, in any letter case (`typed` lower-cases to the
   same text) and with whitespace around it, finds the item.
   */
  lemma SearchByCodeHexFindsItem(item: IconItem, before: string, typed: string, after: string)
    requires AllSpace(before) && AllSpace(after)
    requires Lower(typed) == Lower(CodeHex(item))
    ensures Accepts(NormalizeSearch(Some(before + typed + after)), item)
  {
    var code := CodeHex(item);
    CodeHexTrimmed(item);
    LowerKeepsTrimmed(code);
    TrimmedOfLower(typed);
    assert |typed| == |code|;
    StripPadded(before, typed, after);
    assert NormalizeSearch(Some(before + typed + after)) == Lower(code);
    SearchLowerCodeHexFindsItem(item);
  }

  /** The lower-cased `code_hex()` occurs in the filter's search string. */
  lemma SearchLowerCodeHexFindsItem(item: IconItem)
    ensures Accepts(Lower(CodeHex(item)), item)
  {
    var code := Lower(CodeHex(item));
    HaystackParts(item);
    ContainsSuffix(Lower(item.name) + " ", code);
    ContainsExtend(Lower(item.name) + " " + code, " ", code);
    ContainsExtend(Lower(item.name) + " " + code + " ", FormatHex(item.codepoint, 4, false), code);
  }

  /** Typing an item's lower-case hexadecimal digits (`f135`) finds it. */
  lemma SearchByHexDigitsFindsItem(item: IconItem)
    ensures Accepts(FormatHex(item.codepoint, 4, false), item)
  {
    HaystackParts(item);
    ContainsSuffix(Lower(item.name) + " " + Lower(CodeHex(item)) + " ", FormatHex(item.codepoint, 4, false));
  }

  /** Any search text that occurs in the item's lower-cased name finds it. */
  lemma SearchByNameFindsItem(item: IconItem, text: string)
    requires Contains(Lower(item.name), text)
    ensures Accepts(text, item)
  {
    var code := Lower(CodeHex(item));
    HaystackParts(item);
    ContainsExtend(Lower(item.name), " ", text);
    ContainsExtend(Lower(item.name) + " ", code, text);
    ContainsExtend(Lower(item.name) + " " + code, " ", text);
    ContainsExtend(Lower(item.name) + " " + code + " ", FormatHex(item.codepoint, 4, false), text);
  }

  // ----- font dropdown -----

  /** `set_family_list(families)`; the position the dropdown selects for its new model is the toolkit's choice. */
  function SetFamilyList(w: Window, families: seq<string>, toolkitSelected: nat): (r: Window)
    ensures r.familyList == families && r.selected == toolkitSelected
    ensures r.(familyList := w.familyList, selected := w.selected) == w
  {
    w.(familyList := families, selected := toolkitSelected)
  }

  /** The first position of `x` in `s` (Python's `list.index`). */
  function IndexOf(s: seq<string>, x: string): (i: nat)
    requires x in s
    ensures i < |s| && s[i] == x
    ensures forall k :: 0 <= k < i ==> s[k] != x
  {
    if s[0] == x then 0 else 1 + IndexOf(s[1..], x)
  }

  /** `get_selected_font()`: the family at the selected position, if that position is in the list. */
  function GetSelectedFont(w: Window): (r: Option<string>)
    ensures r.Some? <==> w.selected < |w.familyList|
    ensures r.Some? ==> r.value in w.familyList && r.value == w.familyList[w.selected]
  {
    if w.selected < |w.familyList| then Some(w.familyList[w.selected]) else None
  }

  /** `set_selected_font(name)`: selects the first position of a non-empty listed name, else nothing. */
  function SetSelectedFont(w: Window, name: Option<string>): (r: Window)
    ensures r.currentFont == name
    ensures r.(selected := w.selected, currentFont := w.currentFont) == w
  {
    var pos := if name.Some? && name.value != "" && name.value in w.familyList
               then IndexOf(w.familyList, name.value) else InvalidListPosition;
    w.(currentFont := name, selected := pos)
  }

  /** Selecting a font and reading the selection back gives that font exactly when it is a non-empty listed name. */
  lemma SelectThenGet(w: Window, name: Option<string>)
    requires Valid(w)
    ensures GetSelectedFont(SetSelectedFont(w, name)) ==
              (if name.Some? && name.value != "" && name.value in w.familyList then name else None)
  {
  }

  /** Re-selecting the selected font, as a font change does, keeps it (an empty name cannot be selected). */
  lemma ReselectKeepsFont(w: Window)
    requires Valid(w)
    ensures GetSelectedFont(SetSelectedFont(w, GetSelectedFont(w))) ==
              (if GetSelectedFont(w) == Some("") then None else GetSelectedFont(w))
  {
    SelectThenGet(w, GetSelectedFont(w));
  }
}

=== FILE: text.dfy ===
/**
 The few Python `str` operations the browser relies on: whitespace stripping,
 lower-casing, substring search (`needle in hay`) and string ordering.
 */
module Text {

  /** Python's `str.isspace()` on one character: the characters `str.strip()` removes. */
  predicate IsSpace(c: char) {
    || ('\t' <= c <= '\r')
    || ('\U{1c}' <= c <= ' ')
    || c == '\U{85}'
    || c == '\U{a0}'
    || c == '\U{1680}'
    || ('\U{2000}' <= c <= '\U{200a}')
    || c == '\U{2028}'
    || c == '\U{2029}'
    || c == '\U{202f}'
    || c == '\U{205f}'
    || c == '\U{3000}'
  }

  predicate AllSpace(s: string) {
    forall k :: 0 <= k < |s| ==> IsSpace(s[k])
  }

  /** No whitespace at either end. */
  predicate Trimmed(s: string) {
    s != [] ==> !IsSpace(s[0]) && !IsSpace(s[|s| - 1])
  }

  /** Number of whitespace characters at the front of `s`. */
  function LeadingSpaces(s: string): (n: nat)
    ensures n <= |s|
    ensures AllSpace(s[..n])
    ensures n < |s| ==> !IsSpace(s[n])
  {
    if |s| > 0 && IsSpace(s[0]) then
      var m := LeadingSpaces(s[1..]);
      assert s[1..][..m] == s[1..m + 1];
      1 + m
    else
      0
  }

  /** Number of whitespace characters at the back of `s`. */
  function TrailingSpaces(s: string): (n: nat)
    ensures n <= |s|
    ensures AllSpace(s[|s| - n..])
    ensures n < |s| ==> !IsSpace(s[|s| - n - 1])
  {
    if |s| > 0 && IsSpace(s[|s| - 1]) then
      var m := TrailingSpaces(s[..|s| - 1]);
      assert s[..|s| - 1][|s| - 1 - m..] == s[|s| - 1 - m..|s| - 1];
      1 + m
    else
      0
  }

  /** Python's `s.strip()`: `s` without its leading and trailing whitespace. */
  function Strip(s: string): (r: string)
    ensures |r| <= |s|
    ensures exists i :: 0 <= i <= |s| - |r| && AllSpace(s[..i]) && s[i..i + |r|] == r && AllSpace(s[i + |r|..])
    ensures Trimmed(r)
    ensures r == [] <==> AllSpace(s)
  {
    var (i, m) := StripBounds(s);
    SpanEmpty(s, i, m);
    var r := s[i..i + m];
    assert r != [] ==> r[0] == s[i] && r[|r| - 1] == s[i + m - 1];
    assert 0 <= i <= |s| - |r| && AllSpace(s[..i]) && s[i..i + |r|] == r && AllSpace(s[i + |r|..]);
    r
  }

  /**
   Where the stripped text lies: `s[i..i + m]`, with whitespace before and after it
   and none at its own ends.
   */
  function StripBounds(s: string): (b: (nat, nat))
    ensures b.0 + b.1 <= |s|
    ensures AllSpace(s[..b.0]) && AllSpace(s[b.0 + b.1..])
    ensures b.1 > 0 ==> !IsSpace(s[b.0]) && !IsSpace(s[b.0 + b.1 - 1])
  {
    var i := LeadingSpaces(s);
    var t := s[i..];
    var n := TrailingSpaces(t);
    var m := |t| - n;
    SliceOfSlice(s, i, m);
    assert t[m..] == s[i + m..];
    assert m > 0 ==> t[0] == s[i] && t[|t| - n - 1] == s[i + m - 1];
    (i, m)
  }

  /** With whitespace on both sides of `s[i..i + m]` and none at its start, it is empty exactly when `s` is all whitespace. */
  lemma SpanEmpty(s: string, i: nat, m: nat)
    requires i + m <= |s| && AllSpace(s[..i]) && AllSpace(s[i + m..])
    requires m > 0 ==> !IsSpace(s[i])
    ensures m == 0 <==> AllSpace(s)
  {
    if m == 0 {
      forall k | 0 <= k < |s| ensures IsSpace(s[k]) {
        if k < i {
          assert s[..i][k] == s[k];
        } else {
          assert s[i + m..][k - i] == s[k];
        }
      }
    } else {
      assert !IsSpace(s[i]);
    }
  }

  lemma SliceOfSlice(s: string, i: nat, m: nat)
    requires i + m <= |s|
    ensures s[i..][..m] == s[i..i + m]
    ensures s[i..][m..] == s[i + m..]
  {
  }

  /** A string with no whitespace at either end is its own strip. */
  lemma {:induction false} StripTrimmed(s: string)
    requires Trimmed(s)
    ensures Strip(s) == s
  {
    if s != [] {
      assert LeadingSpaces(s) == 0;
      assert TrailingSpaces(s) == 0;
    }
  }

  lemma {:induction false} LeadingSpacesPadded(before: string, rest: string)
    requires AllSpace(before)
    requires rest != [] && !IsSpace(rest[0])
    ensures LeadingSpaces(before + rest) == |before|
    decreases |before|
  {
    if before != [] {
      assert (before + rest)[1..] == before[1..] + rest;
      LeadingSpacesPadded(before[1..], rest);
    }
  }

  lemma {:induction false} TrailingSpacesPadded(rest: string, after: string)
    requires AllSpace(after)
    requires rest != [] && !IsSpace(rest[|rest| - 1])
    ensures TrailingSpaces(rest + after) == |after|
    decreases |after|
  {
    if after != [] {
      assert (rest + after)[..|rest + after| - 1] == rest + after[..|after| - 1];
      TrailingSpacesPadded(rest, after[..|after| - 1]);
    } else {
      assert rest + after == rest;
    }
  }

  /** Stripping whitespace from around a text whose ends are not whitespace gives that text. */
  lemma StripPadded(before: string, core: string, after: string)
    requires AllSpace(before) && AllSpace(after)
    requires core != [] && Trimmed(core)
    ensures Strip(before + core + after) == core
  {
    var s := before + core + after;
    LeadingSpacesPadded(before, core + after);
    assert s == before + (core + after);
    assert s[|before|..] == core + after;
    TrailingSpacesPadded(core, after);
  }

  /** Python's `str.lower()` on one ASCII character; other characters are kept. */
  function LowerChar(c: char): char {
    if 'A' <= c <= 'Z' then (c as int - 'A' as int + 'a' as int) as char else c
  }

  predicate IsAsciiUpper(c: char) {
    'A' <= c <= 'Z'
  }

  predicate NoAsciiUpper(s: string) {
    forall k :: 0 <= k < |s| ==> !IsAsciiUpper(s[k])
  }

  /** Python's `s.lower()`, restricted to ASCII letters. */
  function Lower(s: string): (r: string)
    ensures |r| == |s|
    ensures forall k :: 0 <= k < |s| ==> r[k] == LowerChar(s[k])
  {
    seq(|s|, k requires 0 <= k < |s| => LowerChar(s[k]))
  }

  lemma LowerConcat(a: string, b: string)
    ensures Lower(a + b) == Lower(a) + Lower(b)
  {
  }

  /** Lower-casing leaves no upper-case letter behind, and so changes nothing the second time. */
  lemma LowerIdempotent(s: string)
    ensures NoAsciiUpper(Lower(s))
    ensures Lower(Lower(s)) == Lower(s)
  {
  }

  /** Lower-casing neither creates nor removes whitespace, so it keeps a trimmed text trimmed. */
  lemma LowerKeepsTrimmed(s: string)
    requires Trimmed(s)
    ensures Trimmed(Lower(s))
  {
  }

  /** Lower-casing maps no other character to whitespace, so text whose lower-cased form is trimmed is trimmed. */
  lemma TrimmedOfLower(s: string)
    requires Trimmed(Lower(s))
    ensures Trimmed(s)
  {
    if s != [] {
      assert Lower(s)[0] == LowerChar(s[0]);
      assert Lower(s)[|s| - 1] == LowerChar(s[|s| - 1]);
    }
  }

  /** `needle` occurs in `hay` at position `i`. */
  predicate OccursAt(hay: string, needle: string, i: nat) {
    i + |needle| <= |hay| && hay[i..i + |needle|] == needle
  }

  /** Python's `needle in hay` on strings. */
  function Contains(hay: string, needle: string): (r: bool)
    decreases |hay|
    ensures r <==> exists i: nat :: OccursAt(hay, needle, i)
  {
    if needle <= hay then
      assert OccursAt(hay, needle, 0);
      true
    else if |hay| == 0 then
      false
    else
      var r := Contains(hay[1..], needle);
      assert forall i: nat :: OccursAt(hay[1..], needle, i) <==> OccursAt(hay, needle, i + 1);
      assert forall i: nat :: OccursAt(hay, needle, i) && i > 0 ==> OccursAt(hay[1..], needle, i - 1);
      r
  }

  /** A string occurs at the end of any string ending with it. */
  lemma ContainsSuffix(a: string, b: string)
    ensures Contains(a + b, b)
  {
    assert (a + b)[|a|..|a| + |b|] == b;
    assert OccursAt(a + b, b, |a|);
  }

  /** Appending text keeps every occurrence. */
  lemma ContainsExtend(x: string, y: string, b: string)
    requires Contains(x, b)
    ensures Contains(x + y, b)
  {
    var i: nat :| OccursAt(x, b, i);
    assert (x + y)[i..i + |b|] == x[i..i + |b|];
    assert OccursAt(x + y, b, i);
  }

  /** Python's `<` on strings: lexicographic by code point, a proper prefix first. */
  predicate Less(a: string, b: string)
    decreases |a|
  {
    if |a| == 0 then |b| > 0
    else if |b| == 0 then false
    else if a[0] == b[0] then Less(a[1..], b[1..])
    else a[0] < b[0]
  }

  lemma {:induction false} LessIrreflexive(a: string)
    ensures !Less(a, a)
    decreases |a|
  {
    if |a| > 0 {
      LessIrreflexive(a[1..]);
    }
  }

  lemma {:induction false} LessTransitive(a: string, b: string, c: string)
    requires Less(a, b) && Less(b, c)
    ensures Less(a, c)
    decreases |a|
  {
    if |a| > 0 && a[0] == b[0] && b[0] == c[0] {
      LessTransitive(a[1..], b[1..], c[1..]);
    }
  }

  lemma {:induction false} LessTotal(a: string, b: string)
    requires a != b
    ensures Less(a, b) || Less(b, a)
    decreases |a|
  {
    if |a| > 0 && |b| > 0 && a[0] == b[0] {
      assert a == [a[0]] + a[1..] && b == [b[0]] + b[1..];
      LessTotal(a[1..], b[1..]);
    }
  }
}

=== FILE: wrappers.dfy ===
/** A value Python may leave as `None`. */
module Wrappers {

  datatype Option<T> = None | Some(value: T)

  /** The present value, else `fallback`: Python's `x or fallback` where only `None` is falsy. */
  function ValueOr<T>(o: Option<T>, fallback: T): T {
    if o.Some? then o.value else fallback
  }
}
